=== FILE: README.md ===
# Soomla store inventory, modelled in Dafny

This project models the inventory consistency rules of the Soomla iOS store
(`soomla/ios-store`). The store keeps a virtual economy of currencies and
goods that a user can buy, be given, have taken away, equip and upgrade.

The catalog is a fixed input. It maps item ids to a closed item kind:

- a currency;
- a single-use good;
- a lifetime good;
- an equippable good, with its `EquippingModel` and category;
- an upgrade, with its target good and its position in that good's series.

Each good carries its purchase type. A purchase type is either a market
purchase or a purchase paid with another item's balance, and it names its
associated item.

The user's state is one immutable record. It holds:

- counted balances for currencies and single-use goods;
- owned flags for goods that can be owned once (the non-consumable storage);
- equipped flags;
- a current-upgrade pointer for each good.

Every `StoreInventory` operation has no side effects. It returns the next
state, or a typed failure, and a failure commits nothing.

Modules:

- `Outcomes` holds the error taxonomy and the `Result` wrapper.
- `Items` holds the catalog, the equipping model and its string names, and
  purchase types.
- `Inventory` holds the state, the balance, give and take, and the invariant
  `Valid`.
- `Purchase` is `PurchaseType.buy`.
- `Equipping` is `EquippableVG` equip and unequip.
- `Upgrades` holds the upgrade ladder.
- `StoreInventory` is the facade.
- `InventoryLaws` holds the cross-operation properties.
- `Scenarios` holds two worked examples: an instance of the shirts-and-hats
  example of `EquippableVG.h`, and the three-level strength ladder of
  `StoreInventory.h`.

The invariant `Valid` is kept by every operation. It says:

- counted balances exist exactly for counted items;
- only goods that can be owned once are owned;
- equipped goods are owned equippables;
- at most one GLOBAL-model good is equipped;
- no two equipped CATEGORY-model goods share a category;
- every current upgrade is an upgrade of its own good.

The model follows the documented contracts of `StoreInventory.h`,
`EquippableVG.h` and `PurchaseType.h`; where they are silent, these choices
were made:

- `takeAmount` fails with InsufficientFunds when the balance is below the
  amount, and takes nothing.
- Taking an equippable good, or removing it as a non-consumable, also
  unequips it. This keeps "equipped implies owned".
- Giving an upgrade makes it the current upgrade of its good.
  `forceUpgrade` is exactly that gift ("you are GIVING the upgrade").
- Taking the current upgrade steps its good back one level. This is the
  header's "to downgrade a virtual good, you take the upgrade".
- A lifetime or equippable good the user already owns is not bought again.
  It "can be purchased only once". Upgrades are always paid for.
- `forceUpgrade` on an item that is not an upgrade fails with WrongItemType
  and changes nothing. The header only says an error message is produced.
- `removeUpgrades` clears the pointer. Upgrades already bought stay owned.
- `nonConsumableItemExists`, `addNonConsumableItem` and
  `removeNonConsumableItem` fail with WrongItemType for a currency or a
  single-use good. The headers name no type restriction, but only goods that
  can be owned once have a non-consumable (owned) flag in the model.
- `goodUpgradeLevel`, `goodCurrentUpgrade`, `upgradeVirtualGood` and
  `removeUpgrades` fail with WrongItemType for a currency. The headers list
  only VirtualItemNotFound, but they take a virtual good, and a currency is
  not one.
- Taking the current upgrade of a good steps the good back one level (see
  `InventoryLaws.TakeCurrentStepsBack`); taking any other upgrade moves no
  pointer.
- Parsing an equipping model's name (`equippingModelStringToEnum`) gives no
  model for a name other than "local", "category" and "global"
  (`Items.ModelFromString` returns `None`). The header returns a plain enum
  and does not say what an unknown name gives.
- GLOBAL equipping unequips every other equippable good, whatever its model.
  This follows the comment in `EquippableVG.h`, which says GLOBAL acts on the
  whole game. It does not follow a reading that limits GLOBAL to other GLOBAL
  goods.
- Exclusivity holds only among goods of the same model. Equipping a CATEGORY
  good unequips the other goods of its category, and equipping a GLOBAL good
  unequips every other good. A later LOCAL equip, or a CATEGORY equip in
  another category, does not unequip an equipped GLOBAL or CATEGORY good. So
  a GLOBAL good can end up equipped next to a LOCAL one. The invariant keeps at
  most one GLOBAL good and one CATEGORY good per category equipped. This
  follows the per-equip wording of `EquippableVG.h`, which says what each equip
  unequips, not what later equips must leave alone.
- Equipping a good that is already equipped still performs its cascade; it is
  not short-circuited. The model proves instead that a second equip changes
  nothing (`Equipping.EquipIdempotent`).

## Model

| member | source | states |
|---|---|---|
| Items.ModelToString | SoomlaiOSStore/domain/virtualGoods/EquippableVG.h:112-115 | kLocal, kCategory and kGlobal map to "local", "category" and "global", in both directions |
| Items.ModelFromString | SoomlaiOSStore/domain/virtualGoods/EquippableVG.h:117 | a name outside the three known names parses to nothing |
| Items.ModelStringRoundTrip | SoomlaiOSStore/domain/virtualGoods/EquippableVG.h:25-30 | parsing the string form of a model gives that model back |
| Items.ModelStringRoundTripBack | SoomlaiOSStore/domain/virtualGoods/EquippableVG.h:112-117 | any name that parses is the string form of the model it parses to |
| Items.AssociationIsExact | SoomlaiOSStore/PurchaseTypes/PurchaseType.h:19-28 | each good's purchase type is associated with exactly that good, so no two goods share one |
| Inventory.Balance | SoomlaiOSStore/domain/virtualGoods/EquippableVG.h:36-39 | a good that can be owned once has balance at most 1, and balance 1 exactly when it is owned |
| Inventory.StepBack | SoomlaiOSStore/StoreInventory.h:55-58 | when the taken upgrade is current, its good keeps a current upgrade exactly when the taken one was not the first, and that upgrade is declared one level lower; otherwise, and for every other good, the pointer is unchanged |
| Inventory.Give | SoomlaiOSStore/StoreInventory.h:41-53 | a count grows by the amount; a good owned once becomes owned with balance 1; no other balance changes; the invariant is kept |
| Inventory.Release | SoomlaiOSStore/StoreInventory.h:55-63 | taking the one unit of a good owned once leaves balance 0, unequips it, keeps the invariant and changes no other balance; a current upgrade steps back as `StepBack` says, and no other pointer moves |
| Inventory.Take | SoomlaiOSStore/StoreInventory.h:55-63 | fails with InsufficientFunds exactly when the balance is below the amount; otherwise the balance drops by the amount and no other balance changes; taking a current upgrade steps its good back as `StepBack` says, and nothing else moves a pointer |
| Purchase.Buy | SoomlaiOSStore/PurchaseTypes/PurchaseType.h:32-38 | fails exactly when the purchase is unaffordable, with InsufficientFunds for a virtual-item price; on success the associated item gains one unit, the payer loses the price, and nothing else's balance moves |
| Equipping.Equip | SoomlaiOSStore/domain/virtualGoods/EquippableVG.h:86-100 | fails with NotEnoughGoods exactly when the good is not owned; else it is equipped, LOCAL unequips none, CATEGORY unequips exactly the others of its category, GLOBAL unequips all others |
| Equipping.Unequip | SoomlaiOSStore/domain/virtualGoods/EquippableVG.h:102-110 | only the target becomes unequipped; every other equip flag, balance and pointer is unchanged |
| Equipping.EquipIdempotent | SoomlaiOSStore/domain/virtualGoods/EquippableVG.h:41-46 | equipping the same good twice gives the same state as equipping it once |
| Equipping.EquipExcludesOthers | SoomlaiOSStore/domain/virtualGoods/EquippableVG.h:19-24 | after a CATEGORY equip no other good of its category is equipped; after a GLOBAL equip no other good at all is |
| Upgrades.NextPosition | SoomlaiOSStore/StoreInventory.h:126-130 | the position the next upgrade buys is 0 exactly when there is no current upgrade, and otherwise follows the current upgrade in the series |
| Upgrades.UpgradeLevel | SoomlaiOSStore/StoreInventory.h:95-115 | walking the series gives 0 with no current upgrade, else the 1-based position of the current upgrade, equal to its declared level plus one |
| Upgrades.CurrentUpgradeId | SoomlaiOSStore/StoreInventory.h:117-124 | the empty string exactly when there is no current upgrade; otherwise the good's current upgrade, an upgrade of that good from its series |
| Upgrades.Advance | SoomlaiOSStore/StoreInventory.h:126-135 | the upgrade at the next position is bought and made current; it fails exactly when that purchase is unaffordable; only the bought upgrade and its payer change balance and no equip flag moves; with the last upgrade current it returns the state unchanged |
| Upgrades.Force | SoomlaiOSStore/StoreInventory.h:137-144 | the upgrade becomes current and owned; no balance decreases and no other balance changes |
| Upgrades.RemoveAll | SoomlaiOSStore/StoreInventory.h:146-152 | the good has no current upgrade; other goods' pointers, all owned flags and balances are unchanged |
| Upgrades.MarketStep | SoomlaiOSStore/StoreInventory.h:126-135 | on a series sold through the market with the purchase going through, one upgrade step succeeds and moves the next position one place up, capped at the series length |
| Upgrades.UpgradeRepeatedly | SoomlaiOSStore/StoreInventory.h:126-135 | k upgrade steps in a row keep the invariant; on a series sold through the market with purchases going through they all succeed and advance the next position by k, capped at the series length |
| Upgrades.LadderSettles | SoomlaiOSStore/StoreInventory.h:129 | on a series sold through the market, once k steps reach the end of the series one more step gives the same result |
| Upgrades.LadderEndsAtLast | SoomlaiOSStore/StoreInventory.h:129 | for a series sold through the market with every purchase going through, N+1 upgrade steps on an N-upgrade series end with the last upgrade current, and the last step changes nothing |
| StoreInventory.BuyItemWithItemId | SoomlaiOSStore/StoreInventory.h:21-27 | unknown id: VirtualItemNotFound; currency: NotPurchasable; an owned lifetime or equippable good is not bought again; any other good is bought through its purchase type, so it succeeds exactly when that purchase is affordable, the payer is debited the price and the good gains one unit |
| StoreInventory.GetItemBalance | SoomlaiOSStore/StoreInventory.h:32-39 | fails exactly for unknown ids; the count for counted items, 1 or 0 by ownership otherwise |
| StoreInventory.GiveAmount | SoomlaiOSStore/StoreInventory.h:41-53 | fails exactly for unknown ids; a count grows by the amount; a good owned once is owned (balance 1) after a positive gift; a given upgrade becomes its good's current upgrade; no other balance, equip flag or pointer changes |
| StoreInventory.TakeAmount | SoomlaiOSStore/StoreInventory.h:55-63 | unknown id: VirtualItemNotFound; succeeds exactly when the balance covers the amount, else InsufficientFunds; then only that balance drops, by the amount, a taken good is unequipped, taking a current upgrade steps its good back as `StepBack` says, and nothing else moves a pointer |
| StoreInventory.EquipVirtualGood | SoomlaiOSStore/StoreInventory.h:68-76 | unknown id: VirtualItemNotFound; a non-equippable: WrongItemType; succeeds exactly for an owned equippable, else NotEnoughGoods; then the good is equipped, LOCAL unequips none, CATEGORY exactly the others of its category, GLOBAL all others, and only equip flags change |
| StoreInventory.UnEquipVirtualGood | SoomlaiOSStore/StoreInventory.h:78-85 | succeeds exactly for equippable goods, and then only the target is unequipped; balances, owned flags and pointers are unchanged |
| StoreInventory.IsVirtualGoodEquipped | SoomlaiOSStore/StoreInventory.h:87-93 | answers exactly for equippable goods, with the good's equip flag; a good reported equipped is owned |
| StoreInventory.GoodUpgradeLevel | SoomlaiOSStore/StoreInventory.h:95-115 | succeeds exactly for goods; 0 exactly when there is no current upgrade, else its 1-based position in the series |
| StoreInventory.GoodCurrentUpgrade | SoomlaiOSStore/StoreInventory.h:117-124 | succeeds exactly for goods; "" exactly when there is no current upgrade, else the current upgrade's id, a member of the series |
| StoreInventory.UpgradeVirtualGood | SoomlaiOSStore/StoreInventory.h:126-135 | with no current upgrade the first of the series becomes current; with one, its successor does; each such step is a purchase that fails exactly when it cannot be paid and otherwise debits the price and owns the upgrade; no other balance and no equip flag changes; with the last one current, or no series at all, nothing changes |
| StoreInventory.ForceUpgrade | SoomlaiOSStore/StoreInventory.h:137-144 | succeeds exactly for upgrades; the upgrade becomes current for its good, no balance decreases, no other balance changes and no equip flag moves |
| StoreInventory.RemoveUpgrades | SoomlaiOSStore/StoreInventory.h:146-152 | succeeds exactly for goods; the good has no current upgrade, every other good keeps its pointer, and owned flags, equip flags and balances are unchanged |
| StoreInventory.NonConsumableItemExists | SoomlaiOSStore/StoreInventory.h:157-162 | answers exactly for goods owned once, true exactly when the balance is 1; unknown ids fail with VirtualItemNotFound |
| StoreInventory.AddNonConsumableItem | SoomlaiOSStore/StoreInventory.h:164-169 | succeeds exactly for goods owned once, adds exactly this id to the owned flags and changes nothing else |
| StoreInventory.RemoveNonConsumableItem | SoomlaiOSStore/StoreInventory.h:171-176 | succeeds exactly for goods owned once, removes exactly this id from the owned and equipped flags and changes nothing else |
| InventoryLaws.GiveThenTakeRestores | SoomlaiOSStore/StoreInventory.h:41-63 | giving n of a counted item and then taking n restores the whole state; an unknown id fails both calls |
| InventoryLaws.TakeThenGiveRestores | SoomlaiOSStore/StoreInventory.h:41-63 | taking n of a counted item and then giving n restores the whole state |
| InventoryLaws.OwnedOnceTakeThenGive | SoomlaiOSStore/StoreInventory.h:41-63 | for a good owned once, a successful take of n followed by a gift of n restores every balance; the good is left unequipped |
| InventoryLaws.OwnedOnceGiveThenTake | SoomlaiOSStore/domain/virtualGoods/EquippableVG.h:36-39 | for a good owned once, give-then-take restores its balance exactly when n is 0, or n is 1 and it was not owned; other balances never move |
| InventoryLaws.TakeCurrentStepsBack | SoomlaiOSStore/StoreInventory.h:55-58 | taking one unit of a good's current upgrade succeeds exactly when it is owned, and then lowers the good's upgrade level by one |
| InventoryLaws.TakeOtherUpgradeKeepsLevel | SoomlaiOSStore/StoreInventory.h:55-58 | taking an upgrade that is not current leaves every good's reported current upgrade and next upgrade position unchanged |
| InventoryLaws.EquipIsObserved | SoomlaiOSStore/StoreInventory.h:68-93 | after a successful equip the good reads as equipped; after a successful unequip it reads as not equipped |
| InventoryLaws.NonConsumableFlags | SoomlaiOSStore/StoreInventory.h:157-176 | add makes the item exist and remove makes it not exist; no other item's answer changes |
| InventoryLaws.ForceUpgradeIsFree | SoomlaiOSStore/StoreInventory.h:137-144 | after forceUpgrade the good's current upgrade reads back as the forced one, and every other balance is unchanged |
| InventoryLaws.RemoveUpgradesClears | SoomlaiOSStore/StoreInventory.h:146-152 | after removeUpgrades the current upgrade reads as "", the ladder restarts at its first upgrade, and upgrades bought earlier stay owned |
| Scenarios.WardrobeExample | SoomlaiOSStore/domain/virtualGoods/EquippableVG.h:53-57 | with two CATEGORY shirts and a LOCAL sword all owned, equipping shirt1, shirt2, then the sword leaves exactly shirt2 and the sword equipped |
| Scenarios.StrengthLadderExample | SoomlaiOSStore/StoreInventory.h:98-108 | a strength good with three upgrades at 5 coins each climbs through strength1, strength2 and strength3 (upgrade positions 1, 2 and 3) for 15 coins; a fourth upgrade changes nothing |

## Left out

- Market billing (`PurchaseWithMarket` and App Store products, EquippableVG.h:64-65) is an external transport. Its answer (purchased, cancelled, unavailable) is a parameter of every buying operation.
- Durable storage is abstracted into the maps and sets of `State`. Storage failures are not modelled.
- Event emission is not modelled. This covers the `notify` flag of `equipWithEvent:` and `unequipWithEvent:`, which never changes the resulting state. `Equipping.Equip` and `Equipping.Unequip` stand for both the plain and the `WithEvent` forms.
- The Objective-C plumbing is not modelled: the class hierarchy, `init` constructors (EquippableVG.h:83-84, PurchaseType.h:30), properties and retain semantics. The catalog loading from configuration is also left out. The catalog is a fixed, well-formed input (`Items.WellFormed`).
- The `associatedItem` back-reference (PurchaseType.h:25-28) is an item id stored in the purchase type, not a pointer assigned after construction.
- `VirtualCategory` objects are not modelled. An equippable good carries its category name, and only equippable goods' categories matter to equipping.
- Currency packs and any purchase-type subclasses other than market and virtual-item payment are not modelled.
- StoreInventory.GiveAmount: amounts are natural numbers and balances are unbounded. The source's 32-bit `int` overflow and negative amounts are not modelled.
- StoreInventory.TakeAmount: amounts are natural numbers, so taking a negative amount is not modelled.
- InventoryLaws.GiveThenTakeRestores: restores the whole state only for counted items. For goods owned once, `InventoryLaws.OwnedOnceGiveThenTake` states exactly when the balance comes back, because such a balance is capped at 1.
- InventoryLaws.TakeThenGiveRestores: restores the whole state only for counted items. For a good owned once the take unequips it and a gift of an upgrade moves its pointer, so `InventoryLaws.OwnedOnceTakeThenGive` states the restoration of every balance instead.
- Purchase.Buy: a virtual-item price must be paid in a currency or single-use good other than the item bought (`Items.PricesWellFormed`). A price paid in a good owned once, which could unequip it or move an upgrade pointer, is not modelled; the clauses that equip flags and other pointers are unchanged rely on this.
- Upgrades.LadderEndsAtLast: proved only for series sold through the market with every purchase going through. A series paid in another item's balance is covered by the concrete `Scenarios.StrengthLadderExample` and, step by step, by `Upgrades.Advance`.
- Upgrades.UpgradeRepeatedly: the ladder clause is proved for series whose upgrades are all sold through the market with the purchase going through. Under other prices each step's success is given by `Upgrades.Advance`.
- Upgrades.LadderSettles: proved for series sold through the market only, for the same reason.

=== FILE: equipping.dfy ===
/**
 The equip exclusivity rules of `EquippableVG`. Equipping an owned good equips
 it and, depending on its equipping model, first unequips others: LOCAL
 unequips none, CATEGORY unequips the other equippable goods of its category,
 GLOBAL unequips every other equippable good. Unequipping touches only the
 target.
 */
module Equipping {
  import opened Outcomes
  import opened Items
  import opened Inventory

  /** `x` is an equippable good of category `c`. */
  predicate InCategory(cat: Catalog, x: ItemId, c: string) {
    x in cat.items && cat.items[x].IsEquippable() && cat.items[x].kind.category == c
  }

  /** `equip` / `equipWithEvent`: fails with NotEnoughGoods, changing nothing,
      when the user does not own the good; otherwise the good is equipped after
      the cascade its model asks for. */
  function Equip(cat: Catalog, s: State, id: ItemId): (r: Result<State>)
    requires WellFormed(cat) && Valid(cat, s)
    requires id in cat.items && cat.items[id].IsEquippable()
    ensures r.Failure? <==> id !in s.owned
    ensures r.Failure? ==> r.error == NotEnoughGoods
    ensures r.Success? ==> Valid(cat, r.value) && id in r.value.equipped
    // nothing but the target becomes equipped
    ensures r.Success? ==> r.value.equipped <= s.equipped + {id}
    // only equip flags change
    ensures r.Success? ==>
              r.value.balances == s.balances && r.value.owned == s.owned && r.value.current == s.current
    ensures r.Success? && cat.items[id].kind.model == Local ==>
              r.value.equipped == s.equipped + {id}
    ensures r.Success? && cat.items[id].kind.model == Category ==>
              forall x | x != id ::
                x in r.value.equipped <==>
                  x in s.equipped && !InCategory(cat, x, cat.items[id].kind.category)
    ensures r.Success? && cat.items[id].kind.model == Global ==> r.value.equipped == {id}
  {
    var k := cat.items[id].kind;
    if id !in s.owned then
      Failure(NotEnoughGoods)
    else
      var kept := match k.model
        case Local => s.equipped
        case Category => set x | x in s.equipped && !InCategory(cat, x, k.category)
        case Global => {};
      Success(s.(equipped := kept + {id}))
  }

  /** `unequip` / `unequipWithEvent`: the target is unequipped and nothing else
      changes. */
  function Unequip(cat: Catalog, s: State, id: ItemId): (r: State)
    requires WellFormed(cat) && Valid(cat, s)
    requires id in cat.items && cat.items[id].IsEquippable()
    ensures Valid(cat, r)
    ensures id !in r.equipped
    ensures forall x | x != id :: x in r.equipped <==> x in s.equipped
    ensures r.balances == s.balances && r.owned == s.owned && r.current == s.current
  {
    s.(equipped := s.equipped - {id})
  }

  /** Equipping a good that is already equipped by the same call changes
      nothing: a second `equip` finds no other good left to unequip. */
  lemma EquipIdempotent(cat: Catalog, s: State, id: ItemId)
    requires WellFormed(cat) && Valid(cat, s)
    requires id in cat.items && cat.items[id].IsEquippable()
    ensures Equip(cat, s, id).Success? ==>
              Equip(cat, Equip(cat, s, id).value, id) == Equip(cat, s, id)
  {
    if Equip(cat, s, id).Success? {
      var once := Equip(cat, s, id).value;
      var twice := Equip(cat, once, id).value;
      forall x
        ensures x in twice.equipped <==> x in once.equipped
      {
        if x != id && cat.items[id].kind.model == Category {
          var c := cat.items[id].kind.category;
          assert x in twice.equipped <==> x in once.equipped && !InCategory(cat, x, c);
          assert x in once.equipped ==> !InCategory(cat, x, c);
        }
      }
      assert twice.equipped == once.equipped;
    }
  }

  /** After a CATEGORY equip the target is the only equipped good of its
      category; after a GLOBAL equip it is the only equipped good at all. */
  lemma EquipExcludesOthers(cat: Catalog, s: State, id: ItemId, other: ItemId)
    requires WellFormed(cat) && Valid(cat, s)
    requires id in cat.items && cat.items[id].IsEquippable()
    requires Equip(cat, s, id).Success? && other != id
    ensures cat.items[id].kind.model == Category && InCategory(cat, other, cat.items[id].kind.category) ==>
              other !in Equip(cat, s, id).value.equipped
    ensures cat.items[id].kind.model == Global ==> other !in Equip(cat, s, id).value.equipped
  {
  }
}

=== FILE: inventory.dfy ===
/**
 The user's stored inventory and the two primitive balance mutations every
 operation is built from: give and take. Durable storage is abstracted into
 maps and sets: counted balances, the owned flags of lifetime goods
 (non-consumable storage), the equipped flags, and the current-upgrade pointer
 of each upgradeable good.
 */
module Inventory {
  import opened Outcomes
  import opened Items

  datatype State = State(
    balances: map<ItemId, nat>,    // currencies and single-use goods
    owned: set<ItemId>,            // lifetime, equippable and upgrade goods the user owns
    equipped: set<ItemId>,         // equippable goods in use
    current: map<ItemId, ItemId>)  // good -> its current upgrade

  /** The ids whose balance is a count. */
  function CountedIds(cat: Catalog): set<ItemId> {
    set id | id in cat.items && cat.items[id].Counted()
  }

  /** The ids that can be owned at most once. */
  function OnceIds(cat: Catalog): set<ItemId> {
    set id | id in cat.items && cat.items[id].OwnedOnce()
  }

  ghost predicate IsGlobalGood(cat: Catalog, id: ItemId) {
    id in cat.items && cat.items[id].IsEquippable() && cat.items[id].kind.model == Global
  }

  ghost predicate IsCategoryGood(cat: Catalog, id: ItemId) {
    id in cat.items && cat.items[id].IsEquippable() && cat.items[id].kind.model == Category
  }

  /** At most one GLOBAL-model good is equipped. */
  ghost predicate GlobalExclusive(cat: Catalog, s: State) {
    forall x, y | x in s.equipped && y in s.equipped && IsGlobalGood(cat, x) && IsGlobalGood(cat, y) ::
      x == y
  }

  /** No two equipped CATEGORY-model goods share a category. */
  ghost predicate CategoryExclusive(cat: Catalog, s: State) {
    forall x, y | x in s.equipped && y in s.equipped && IsCategoryGood(cat, x) && IsCategoryGood(cat, y) && x != y ::
      cat.items[x].kind.category != cat.items[y].kind.category
  }

  /** Every current upgrade is an upgrade of the good it is recorded for,
      hence (in a consistent catalog) a member of that good's series. */
  ghost predicate PointersInSeries(cat: Catalog, s: State) {
    forall g | g in s.current ::
      s.current[g] in cat.items && cat.items[s.current[g]].IsUpgrade()
      && cat.items[s.current[g]].kind.good == g
  }

  /** The consistency rules every completed operation keeps. */
  ghost predicate Valid(cat: Catalog, s: State) {
    && s.balances.Keys == CountedIds(cat)
    && s.owned <= OnceIds(cat)
    && s.equipped <= s.owned
    && (forall id | id in s.equipped :: cat.items[id].IsEquippable())
    && GlobalExclusive(cat, s)
    && CategoryExclusive(cat, s)
    && PointersInSeries(cat, s)
  }

  /** The balance `getItemBalance` reports: the count of a currency or
      single-use good, 1 or 0 for a good that can be owned once. */
  function Balance(cat: Catalog, s: State, id: ItemId): (b: nat)
    requires Valid(cat, s) && id in cat.items
    ensures cat.items[id].OwnedOnce() ==> b <= 1 && (b == 1 <==> id in s.owned)
  {
    if cat.items[id].Counted() then s.balances[id]
    else if id in s.owned then 1 else 0
  }

  /** `id` is the current upgrade of the good it upgrades. */
  predicate IsCurrentUpgrade(cat: Catalog, s: State, id: ItemId)
    requires id in cat.items
  {
    cat.items[id].IsUpgrade() && cat.items[id].kind.good in s.current && s.current[cat.items[id].kind.good] == id
  }

  /** The current-upgrade pointers after the upgrade `u` of a good `g` is taken.
      When `u` is `g`'s current upgrade, `g` steps back one level: to the
      upgrade declared one level below `u`, or to no upgrade when `u` was the
      first. Every other pointer is kept. */
  function StepBack(cat: Catalog, s: State, u: ItemId): (m: map<ItemId, ItemId>)
    requires WellFormed(cat) && Valid(cat, s)
    requires u in cat.items && cat.items[u].IsUpgrade()
    ensures var g := cat.items[u].kind.good;
            g in m <==> g in s.current && (s.current[g] != u || cat.items[u].kind.level > 0)
    ensures var g := cat.items[u].kind.good;
            g in m && s.current[g] == u ==>
              && m[g] in cat.items && cat.items[m[g]].IsUpgrade()
              && cat.items[m[g]].kind.good == g
              && cat.items[m[g]].kind.level + 1 == cat.items[u].kind.level
    ensures var g := cat.items[u].kind.good;
            !(g in s.current && s.current[g] == u) ==> m == s.current
    ensures forall h | h != cat.items[u].kind.good ::
              (h in m <==> h in s.current) && (h in m ==> m[h] == s.current[h])
  {
    var k := cat.items[u].kind;
    if k.good !in s.current || s.current[k.good] != u then s.current
    else if k.level == 0 then s.current - {k.good}
    else
      UpgradeInSeries(cat, u);
      s.current[k.good := cat.upgrades[k.good][k.level - 1]]
  }

  /** `giveAmount`: a count grows by `amount`; a good that can be owned once
      becomes owned (any positive amount gives exactly one). Giving an upgrade
      also makes it the current upgrade of its good. */
  function Give(cat: Catalog, s: State, id: ItemId, amount: nat): (r: State)
    requires WellFormed(cat) && Valid(cat, s) && id in cat.items
    ensures Valid(cat, r)
    ensures cat.items[id].Counted() ==> Balance(cat, r, id) == Balance(cat, s, id) + amount
    ensures cat.items[id].OwnedOnce() ==>
              Balance(cat, r, id) == if amount == 0 then Balance(cat, s, id) else 1
    ensures forall x | x in cat.items && x != id :: Balance(cat, r, x) == Balance(cat, s, x)
    ensures r.equipped == s.equipped
    ensures !cat.items[id].IsUpgrade() || amount == 0 ==> r.current == s.current
    ensures cat.items[id].IsUpgrade() && amount > 0 ==>
              r.current == s.current[cat.items[id].kind.good := id]
  {
    var item := cat.items[id];
    if item.Counted() then
      s.(balances := s.balances[id := s.balances[id] + amount])
    else if amount == 0 then
      s
    else if item.kind.Upgrade? then
      s.(owned := s.owned + {id}, current := s.current[item.kind.good := id])
    else
      s.(owned := s.owned + {id})
  }

  /** Taking the single unit of a good owned once: it stops being owned, and
      so stops being equipped; an upgrade that was current steps back. */
  function Release(cat: Catalog, s: State, id: ItemId): (r: State)
    requires WellFormed(cat) && Valid(cat, s) && id in cat.items && cat.items[id].OwnedOnce()
    ensures Valid(cat, r)
    ensures Balance(cat, r, id) == 0
    ensures forall x | x in cat.items && x != id :: Balance(cat, r, x) == Balance(cat, s, x)
    ensures r.equipped == s.equipped - {id}
    // only taking a good's current upgrade moves a pointer
    ensures !IsCurrentUpgrade(cat, s, id) ==> r.current == s.current
    ensures IsCurrentUpgrade(cat, s, id) ==> r.current == StepBack(cat, s, id)
  {
    if cat.items[id].kind.Upgrade? then
      s.(owned := s.owned - {id}, current := StepBack(cat, s, id))
    else
      s.(owned := s.owned - {id}, equipped := s.equipped - {id})
  }

  /** `takeAmount`: fails when the balance is smaller than `amount`; otherwise a
      count shrinks by `amount` and a good owned once stops being owned. A taken
      equippable is unequipped, and taking the current upgrade steps its good
      back to the previous upgrade. */
  function Take(cat: Catalog, s: State, id: ItemId, amount: nat): (r: Result<State>)
    requires WellFormed(cat) && Valid(cat, s) && id in cat.items
    ensures r.Failure? <==> Balance(cat, s, id) < amount
    ensures r.Failure? ==> r.error == InsufficientFunds
    ensures r.Success? ==> Valid(cat, r.value)
    ensures r.Success? ==> Balance(cat, r.value, id) == Balance(cat, s, id) - amount
    ensures r.Success? ==>
              forall x | x in cat.items && x != id :: Balance(cat, r.value, x) == Balance(cat, s, x)
    ensures r.Success? ==> r.value.equipped == s.equipped - (if amount == 0 then {} else {id})
    // only taking a good's current upgrade moves a pointer
    ensures r.Success? && (amount == 0 || !IsCurrentUpgrade(cat, s, id)) ==> r.value.current == s.current
    ensures r.Success? && amount > 0 && IsCurrentUpgrade(cat, s, id) ==> r.value.current == StepBack(cat, s, id)
  {
    if Balance(cat, s, id) < amount then
      Failure(InsufficientFunds)
    else if cat.items[id].Counted() then
      Success(s.(balances := s.balances[id := s.balances[id] - amount]))
    else if amount == 0 then
      Success(s)
    else
      Success(Release(cat, s, id))
  }
}

=== FILE: items.dfy ===
/**
 The static item catalog: the closed set of virtual item kinds, the equipping
 models of equippable goods, and the purchase types that say how a purchasable
 item is paid for. The Objective-C class hierarchy
 (VirtualItem > PurchasableVirtualItem > VirtualGood > LifetimeVG > EquippableVG)
 becomes one tagged variant; the catalog is fixed input to every operation.
 */
module Items {
  import opened Outcomes

  type ItemId = string

  /** How equipping one `EquippableVG` affects the others. */
  datatype EquippingModel =
    | Local      // affects no other equippable good
    | Category   // unequips the other equippable goods of the same category
    | Global     // unequips every other equippable good of the game

  /** `equippingModelEnumToString`: the names listed in `EquippingModelArray`. */
  function ModelToString(m: EquippingModel): (s: string)
    ensures s == "local" <==> m == Local
    ensures s == "category" <==> m == Category
    ensures s == "global" <==> m == Global
  {
    match m
    case Local => "local"
    case Category => "category"
    case Global => "global"
  }

  /** `equippingModelStringToEnum`: the position of the name in `EquippingModelArray`,
      or nothing for a name that is not in it. */
  function ModelFromString(s: string): (r: Option<EquippingModel>)
    ensures r.None? <==> s !in {"local", "category", "global"}
  {
    if s == "local" then Some(Local)
    else if s == "category" then Some(Category)
    else if s == "global" then Some(Global)
    else None
  }

  /** The string form of a model reads back as that model. */
  lemma ModelStringRoundTrip(m: EquippingModel)
    ensures ModelFromString(ModelToString(m)) == Some(m)
  {
  }

  /** Every name that parses is the string form of what it parses to. */
  lemma ModelStringRoundTripBack(s: string)
    ensures ModelFromString(s).Some? ==> ModelToString(ModelFromString(s).value) == s
  {
  }

  /** The answer of the market billing collaborator to one purchase request. */
  datatype MarketOutcome = Purchased | Cancelled | Unavailable

  /** How a purchasable item is paid for. `item` is the associated item: the one
      this purchase type buys. */
  datatype PurchaseType =
    | WithMarket(item: ItemId, productId: string)
    | WithVirtualItem(item: ItemId, payWith: ItemId, amount: nat)

  /** The kinds of virtual good. An upgrade names the good it upgrades and its
      0-based position in that good's upgrade series. */
  datatype GoodKind =
    | SingleUse
    | Lifetime
    | Equippable(model: EquippingModel, category: string)
    | Upgrade(good: ItemId, level: nat)

  /** A catalog entry: a currency, which cannot be bought directly, or a good
      with its purchase type. */
  datatype Item =
    | Currency
    | Good(kind: GoodKind, purchase: PurchaseType)
  {
    /** Items whose balance is an unbounded count. */
    predicate Counted() {
      Currency? || kind.SingleUse?
    }

    /** Items that can be owned at most once (`LifetimeVG` and its subclasses). */
    predicate OwnedOnce() {
      Good? && !kind.SingleUse?
    }

    predicate IsEquippable() {
      Good? && kind.Equippable?
    }

    predicate IsUpgrade() {
      Good? && kind.Upgrade?
    }
  }

  /** The catalog: every item by id, and every upgradeable good's ordered
      upgrade series. */
  datatype Catalog = Catalog(items: map<ItemId, Item>, upgrades: map<ItemId, seq<ItemId>>)

  /** Each good's purchase type is associated with that good, and a virtual-item
      price is paid in some other counted item of the catalog. */
  ghost predicate PricesWellFormed(cat: Catalog) {
    forall id | id in cat.items && cat.items[id].Good? ::
      var pt := cat.items[id].purchase;
      && pt.item == id
      && (pt.WithVirtualItem? ==>
            pt.payWith in cat.items && cat.items[pt.payWith].Counted() && pt.payWith != id)
  }

  /** Every upgrade sits at its declared position in its good's series. */
  ghost predicate UpgradesPlaced(cat: Catalog) {
    forall id | id in cat.items && cat.items[id].IsUpgrade() ::
      var k := cat.items[id].kind;
      k.good in cat.upgrades && k.level < |cat.upgrades[k.good]| && cat.upgrades[k.good][k.level] == id
  }

  /** Every series belongs to a good that is not itself an upgrade, and holds
      only upgrades of that good, each at its declared position. */
  ghost predicate SeriesWellFormed(cat: Catalog) {
    && (forall g | g in cat.upgrades ::
          g in cat.items && cat.items[g].Good? && !cat.items[g].kind.Upgrade?)
    && (forall g, i | g in cat.upgrades && 0 <= i < |cat.upgrades[g]| ::
          var u := cat.upgrades[g][i];
          u in cat.items && cat.items[u].IsUpgrade()
          && cat.items[u].kind.good == g && cat.items[u].kind.level == i)
  }

  /** A consistent catalog, as the store's configuration loader produces. The
      empty id is reserved: `goodCurrentUpgrade` uses it for "no upgrade". */
  ghost predicate WellFormed(cat: Catalog) {
    && "" !in cat.items
    && PricesWellFormed(cat)
    && UpgradesPlaced(cat)
    && SeriesWellFormed(cat)
  }

  /** The upgrade series of a good; a good without upgrades has the empty series. */
  function Series(cat: Catalog, g: ItemId): (chain: seq<ItemId>)
    ensures g !in cat.upgrades ==> chain == []
  {
    if g in cat.upgrades then cat.upgrades[g] else []
  }

  /** The associated item of a purchase type: the item its `buy` purchases. */
  function AssociatedItem(pt: PurchaseType): ItemId {
    pt.item
  }

  /** In a consistent catalog every purchasable item's purchase type is associated
      with exactly that item, so no two items share a purchase type. */
  lemma AssociationIsExact(cat: Catalog, x: ItemId, y: ItemId)
    requires WellFormed(cat)
    requires x in cat.items && cat.items[x].Good?
    requires y in cat.items && cat.items[y].Good?
    ensures AssociatedItem(cat.items[x].purchase) == x
    ensures cat.items[x].purchase == cat.items[y].purchase ==> x == y
  {
  }

  /** An upgrade of `g` (by its kind) sits in `g`'s series at its level. */
  lemma UpgradeInSeries(cat: Catalog, u: ItemId)
    requires WellFormed(cat)
    requires u in cat.items && cat.items[u].IsUpgrade()
    ensures cat.items[u].kind.level < |Series(cat, cat.items[u].kind.good)|
    ensures Series(cat, cat.items[u].kind.good)[cat.items[u].kind.level] == u
  {
  }
}

=== FILE: laws.dfy ===
/**
 Properties that relate several `StoreInventory` operations: give/take round
 trips, queries agreeing with the mutations before them, and the free and
 clearing upgrade operations.
 */
module InventoryLaws {
  import opened Outcomes
  import opened Items
  import opened Inventory
  import opened Upgrades
  import opened StoreInventory

  /** Giving `n` of a counted item and then taking `n` back restores the state
      exactly; an unknown id makes both calls fail the same way. */
  lemma GiveThenTakeRestores(cat: Catalog, s: State, id: ItemId, n: nat)
    requires WellFormed(cat) && Valid(cat, s)
    requires id in cat.items ==> cat.items[id].Counted()
    ensures id !in cat.items ==>
              GiveAmount(cat, s, n, id) == TakeAmount(cat, s, n, id) == Failure(VirtualItemNotFound)
    ensures id in cat.items ==>
              GiveAmount(cat, s, n, id).Success?
              && TakeAmount(cat, GiveAmount(cat, s, n, id).value, n, id) == Success(s)
  {
    if id in cat.items {
      var given := GiveAmount(cat, s, n, id).value;
      assert given.balances == s.balances[id := s.balances[id] + n];
      assert given.balances[id := s.balances[id]] == s.balances;
    }
  }

  /** Taking `n` of a counted item and giving `n` back restores the state exactly. */
  lemma TakeThenGiveRestores(cat: Catalog, s: State, id: ItemId, n: nat)
    requires WellFormed(cat) && Valid(cat, s)
    requires id in cat.items && cat.items[id].Counted()
    requires TakeAmount(cat, s, n, id).Success?
    ensures GiveAmount(cat, TakeAmount(cat, s, n, id).value, n, id) == Success(s)
  {
    CountedTakeThenGive(cat, s, id, n);
    assert TakeAmount(cat, s, n, id) == Take(cat, s, id, n);
  }

  /** The engine-level round trip behind `TakeThenGiveRestores`. */
  lemma CountedTakeThenGive(cat: Catalog, s: State, id: ItemId, n: nat)
    requires WellFormed(cat) && Valid(cat, s)
    requires id in cat.items && cat.items[id].Counted() && s.balances[id] >= n
    ensures Take(cat, s, id, n).Success? && Give(cat, Take(cat, s, id, n).value, id, n) == s
  {
    var taken := s.(balances := s.balances[id := s.balances[id] - n]);
    assert Take(cat, s, id, n) == Success(taken);
    assert taken.balances[id := s.balances[id]] == s.balances;
  }

  /** Taking `n` of a good owned once and giving `n` back restores every
      balance. The good itself does not come back equipped: taking it away
      unequipped it. */
  lemma OwnedOnceTakeThenGive(cat: Catalog, s: State, id: ItemId, n: nat)
    requires WellFormed(cat) && Valid(cat, s)
    requires id in cat.items && cat.items[id].OwnedOnce()
    requires TakeAmount(cat, s, n, id).Success?
    ensures var back := GiveAmount(cat, TakeAmount(cat, s, n, id).value, n, id);
            && back.Success?
            && (forall x | x in cat.items :: Balance(cat, back.value, x) == Balance(cat, s, x))
            && back.value.equipped == s.equipped - (if n == 0 then {} else {id})
  {
    var taken := TakeAmount(cat, s, n, id).value;
    if n > 0 {
      assert n == 1 && id in s.owned;
      assert Balance(cat, taken, id) == 0;
    }
  }

  /** A good owned at most once has balance at most 1, so give-then-take brings
      its balance back exactly when nothing is given or one unit is given to a
      user who did not own it. Every other balance is untouched throughout. */
  lemma OwnedOnceGiveThenTake(cat: Catalog, s: State, id: ItemId, n: nat)
    requires WellFormed(cat) && Valid(cat, s)
    requires id in cat.items && cat.items[id].OwnedOnce()
    ensures var given := GiveAmount(cat, s, n, id).value;
            var back := TakeAmount(cat, given, n, id);
            (back.Success? && Balance(cat, back.value, id) == Balance(cat, s, id))
              <==> (n == 0 || (n == 1 && id !in s.owned))
    ensures var given := GiveAmount(cat, s, n, id).value;
            var back := TakeAmount(cat, given, n, id);
            back.Success? ==>
              forall x | x in cat.items && x != id :: Balance(cat, back.value, x) == Balance(cat, s, x)
  {
    var given := GiveAmount(cat, s, n, id).value;
    if n > 0 {
      assert Balance(cat, given, id) == 1;
    }
  }

  /** Taking one unit of a good's current upgrade downgrades the good by one
      level: the next upgrade step would buy that upgrade again. The take
      succeeds exactly when the upgrade is owned. */
  lemma TakeCurrentStepsBack(cat: Catalog, s: State, u: ItemId)
    requires WellFormed(cat) && Valid(cat, s)
    requires u in cat.items && cat.items[u].IsUpgrade()
    requires IsCurrentUpgrade(cat, s, u)
    ensures TakeAmount(cat, s, 1, u).Success? <==> u in s.owned
    ensures TakeAmount(cat, s, 1, u).Success? ==>
              var g := cat.items[u].kind.good;
              NextPosition(cat, TakeAmount(cat, s, 1, u).value, g) == NextPosition(cat, s, g) - 1
  {
    UpgradeInSeries(cat, u);
  }

  /** Taking an upgrade that is not its good's current upgrade changes no good's
      upgrade level: every good reads back the same current upgrade and would
      buy the same next one. */
  lemma TakeOtherUpgradeKeepsLevel(cat: Catalog, s: State, u: ItemId, n: nat)
    requires WellFormed(cat) && Valid(cat, s)
    requires u in cat.items && cat.items[u].IsUpgrade()
    requires !IsCurrentUpgrade(cat, s, u)
    ensures TakeAmount(cat, s, n, u).Success? ==>
              forall g | g in cat.items ::
                && GoodCurrentUpgrade(cat, TakeAmount(cat, s, n, u).value, g) == GoodCurrentUpgrade(cat, s, g)
                && NextPosition(cat, TakeAmount(cat, s, n, u).value, g) == NextPosition(cat, s, g)
  {
    if TakeAmount(cat, s, n, u).Success? {
      assert TakeAmount(cat, s, n, u).value.current == s.current;
    }
  }

  /** After equipping succeeds the good reads as equipped; after unequipping it
      reads as not equipped. */
  lemma EquipIsObserved(cat: Catalog, s: State, id: ItemId)
    requires WellFormed(cat) && Valid(cat, s)
    ensures EquipVirtualGood(cat, s, id).Success? ==>
              IsVirtualGoodEquipped(cat, EquipVirtualGood(cat, s, id).value, id) == Success(true)
    ensures UnEquipVirtualGood(cat, s, id).Success? ==>
              IsVirtualGoodEquipped(cat, UnEquipVirtualGood(cat, s, id).value, id) == Success(false)
  {
  }

  /** Adding a non-consumable makes it exist, removing it makes it not exist, and
      neither changes whether any other item exists. */
  lemma NonConsumableFlags(cat: Catalog, s: State, id: ItemId, other: ItemId)
    requires WellFormed(cat) && Valid(cat, s)
    requires other != id
    ensures AddNonConsumableItem(cat, s, id).Success? ==>
              && NonConsumableItemExists(cat, AddNonConsumableItem(cat, s, id).value, id) == Success(true)
              && NonConsumableItemExists(cat, AddNonConsumableItem(cat, s, id).value, other)
                 == NonConsumableItemExists(cat, s, other)
    ensures RemoveNonConsumableItem(cat, s, id).Success? ==>
              && NonConsumableItemExists(cat, RemoveNonConsumableItem(cat, s, id).value, id) == Success(false)
              && NonConsumableItemExists(cat, RemoveNonConsumableItem(cat, s, id).value, other)
                 == NonConsumableItemExists(cat, s, other)
  {
  }

  /** A forced upgrade becomes the good's current upgrade, and no balance other
      than the upgrade's own changes. */
  lemma ForceUpgradeIsFree(cat: Catalog, s: State, u: ItemId)
    requires WellFormed(cat) && Valid(cat, s)
    requires ForceUpgrade(cat, s, u).Success?
    ensures GoodCurrentUpgrade(cat, ForceUpgrade(cat, s, u).value, cat.items[u].kind.good) == Success(u)
    ensures forall x | x in cat.items && x != u ::
              Balance(cat, ForceUpgrade(cat, s, u).value, x) == Balance(cat, s, x)
  {
  }

  /** After removing upgrades the good has no current upgrade (its current
      upgrade reads as "" and it is back at the start of its series), while
      upgrades already bought stay owned. */
  lemma RemoveUpgradesClears(cat: Catalog, s: State, g: ItemId)
    requires WellFormed(cat) && Valid(cat, s)
    requires RemoveUpgrades(cat, s, g).Success?
    ensures GoodCurrentUpgrade(cat, RemoveUpgrades(cat, s, g).value, g) == Success("")
    ensures NextPosition(cat, RemoveUpgrades(cat, s, g).value, g) == 0
    ensures forall u | u in s.owned :: u in RemoveUpgrades(cat, s, g).value.owned
  {
  }
}

=== FILE: outcomes.dfy ===
/**
 The typed failures of the store and the result wrapper every inventory
 operation returns. The Objective-C library signals these conditions with
 exceptions (`VirtualItemNotFoundException`, `InsufficientFundsException`,
 `NotEnoughGoodsException`); here they are values the caller must match on.
 */
module Outcomes {

  /** A value that may be absent: an unknown equipping-model name parses to `None`. */
  datatype Option<+T> = None | Some(value: T)

  /** Every way an inventory operation can fail. */
  datatype StoreError =
    | VirtualItemNotFound   // the id is not in the catalog
    | WrongItemType         // the item exists but is not of the kind the operation needs
    | InsufficientFunds     // the payer (or the taken item) has too small a balance
    | NotEnoughGoods        // equipping a good the user does not own
    | NotPurchasable        // buying an item that has no purchase type (a currency)
    | PurchaseCancelled     // reported by the market billing collaborator
    | MarketUnavailable     // reported by the market billing collaborator

  /** Either the new value or the reason the operation failed; usable with `:-`. */
  datatype Result<+T> = Success(value: T) | Failure(error: StoreError) {

    predicate IsFailure() {
      Failure?
    }

    function PropagateFailure<U>(): Result<U>
      requires Failure?
    {
      Failure(error)
    }

    function Extract(): T
      requires Success?
    {
      value
    }
  }
}

=== FILE: purchase.dfy ===
/**
 The payment strategy of a purchasable item. The abstract `PurchaseType` with
 its per-subclass `buy` becomes one function matching on the closed
 `PurchaseType` variant: a market purchase asks the billing collaborator (its
 answer is a parameter), a virtual-item purchase spends another item's
 balance. On success the associated item is granted one unit.
 */
module Purchase {
  import opened Outcomes
  import opened Items
  import opened Inventory

  /** `pt` is the purchase type of some item of the catalog. */
  ghost predicate InCatalog(cat: Catalog, pt: PurchaseType) {
    pt.item in cat.items && cat.items[pt.item].Good? && cat.items[pt.item].purchase == pt
  }

  /** The purchase cannot go through: the market did not complete it, or the
      payer's balance is below the price. */
  ghost predicate Unaffordable(cat: Catalog, s: State, pt: PurchaseType, market: MarketOutcome)
    requires Valid(cat, s)
    requires pt.WithVirtualItem? ==> pt.payWith in cat.items
  {
    match pt
    case WithMarket(_, _) => market != Purchased
    case WithVirtualItem(_, payer, price) => Balance(cat, s, payer) < price
  }

  /** `PurchaseType.buy`: pays, then grants one unit of the associated item.
      Fails with InsufficientFunds when the payer's balance is below the price,
      and with the market's own answer when the market does not complete. A
      failure changes nothing. */
  function Buy(cat: Catalog, s: State, pt: PurchaseType, market: MarketOutcome): (r: Result<State>)
    requires WellFormed(cat) && Valid(cat, s) && InCatalog(cat, pt)
    ensures r.Failure? <==> Unaffordable(cat, s, pt, market)
    ensures r.Failure? && pt.WithVirtualItem? ==> r.error == InsufficientFunds
    ensures r.Failure? && pt.WithMarket? ==>
              r.error == (if market == Cancelled then PurchaseCancelled else MarketUnavailable)
    ensures r.Success? ==> Valid(cat, r.value)
    // the associated item is granted exactly one unit
    ensures r.Success? && cat.items[pt.item].Counted() ==>
              Balance(cat, r.value, pt.item) == Balance(cat, s, pt.item) + 1
    ensures r.Success? && cat.items[pt.item].OwnedOnce() ==> pt.item in r.value.owned
    // the payer is debited the price
    ensures r.Success? && pt.WithVirtualItem? ==>
              Balance(cat, r.value, pt.payWith) == Balance(cat, s, pt.payWith) - pt.amount
    // nothing else's balance moves
    ensures r.Success? ==>
              forall x | x in cat.items && x != pt.item && (pt.WithVirtualItem? ==> x != pt.payWith) ::
                Balance(cat, r.value, x) == Balance(cat, s, x)
    ensures r.Success? ==> r.value.equipped == s.equipped
    ensures r.Success? && cat.items[pt.item].IsUpgrade() ==>
              r.value.current == s.current[cat.items[pt.item].kind.good := pt.item]
    ensures r.Success? && !cat.items[pt.item].IsUpgrade() ==> r.value.current == s.current
  {
    match pt
    case WithMarket(item, _) =>
      (match market
       case Purchased => Success(Give(cat, s, item, 1))
       case Cancelled => Failure(PurchaseCancelled)
       case Unavailable => Failure(MarketUnavailable))
    case WithVirtualItem(item, payer, price) =>
      var paid :- Take(cat, s, payer, price);
      Success(Give(cat, paid, item, 1))
  }
}

=== FILE: scenarios.dfy ===
/**
 Two worked examples, stated on concrete catalogs: an instance of the
 shirts-and-hats example of `EquippableVG`, equipping shirts of one category
 next to a LOCAL sword, and climbing a three-level "strength" upgrade ladder
 paid in coins.
 */
module Scenarios {
  import opened Outcomes
  import opened Items
  import opened Inventory
  import opened Equipping
  import opened Purchase
  import opened Upgrades
  import opened StoreInventory

  function Wardrobe(): Catalog {
    Catalog(
      map[
        "sword" := Good(Equippable(Local, "weapons"), WithMarket("sword", "com.game.sword")),
        "shirt1" := Good(Equippable(Category, "clothes"), WithMarket("shirt1", "com.game.shirt1")),
        "shirt2" := Good(Equippable(Category, "clothes"), WithMarket("shirt2", "com.game.shirt2"))],
      map[])
  }

  lemma WardrobeWellFormed()
    ensures WellFormed(Wardrobe())
  {
  }

  /** The user owns all three goods and has nothing equipped. */
  function Dressed(equipped: set<ItemId>): State {
    State(map[], {"sword", "shirt1", "shirt2"}, equipped, map[])
  }

  lemma WardrobeStateValid(equipped: set<ItemId>)
    requires equipped in {{}, {"shirt1"}, {"shirt2"}, {"shirt2", "sword"}}
    ensures Valid(Wardrobe(), Dressed(equipped))
  {
    var cat := Wardrobe();
    assert CountedIds(cat) == {} by {
      forall id | id in cat.items ensures !cat.items[id].Counted() { }
    }
  }

  /** Equipping `id` from the `before` outfit gives the `after` outfit. */
  lemma WardrobeStep(before: set<ItemId>, id: ItemId, after: set<ItemId>)
    requires (before, id, after) in
               {({}, "shirt1", {"shirt1"}), ({"shirt1"}, "shirt2", {"shirt2"}),
                ({"shirt2"}, "sword", {"shirt2", "sword"})}
    ensures WellFormed(Wardrobe()) && Valid(Wardrobe(), Dressed(before))
    ensures EquipVirtualGood(Wardrobe(), Dressed(before), id) == Success(Dressed(after))
  {
    var cat := Wardrobe();
    WardrobeWellFormed();
    WardrobeStateValid(before);
    var r := EquipVirtualGood(cat, Dressed(before), id).value;
    if id == "shirt2" {
      assert InCategory(cat, "shirt1", "clothes");
    }
    assert r.equipped == after;
  }

  /** Owning all three, equipping shirt1, then shirt2, then the sword leaves
      exactly shirt2 and the sword equipped. */
  lemma WardrobeExample()
    ensures WellFormed(Wardrobe()) && Valid(Wardrobe(), Dressed({}))
    ensures var s1 := EquipVirtualGood(Wardrobe(), Dressed({}), "shirt1");
            && s1 == Success(Dressed({"shirt1"}))
            && var s2 := EquipVirtualGood(Wardrobe(), s1.value, "shirt2");
            && s2 == Success(Dressed({"shirt2"}))
            && EquipVirtualGood(Wardrobe(), s2.value, "sword") == Success(Dressed({"shirt2", "sword"}))
  {
    WardrobeStep({}, "shirt1", {"shirt1"});
    WardrobeStep({"shirt1"}, "shirt2", {"shirt2"});
    WardrobeStep({"shirt2"}, "sword", {"shirt2", "sword"});
  }

  function Strength(): Catalog {
    Catalog(
      map[
        "coins" := Currency,
        "strength" := Good(SingleUse, WithVirtualItem("strength", "coins", 10)),
        "strength1" := Good(Upgrade("strength", 0), WithVirtualItem("strength1", "coins", 5)),
        "strength2" := Good(Upgrade("strength", 1), WithVirtualItem("strength2", "coins", 5)),
        "strength3" := Good(Upgrade("strength", 2), WithVirtualItem("strength3", "coins", 5))],
      map["strength" := Levels()])
  }

  function Levels(): seq<ItemId> {
    ["strength1", "strength2", "strength3"]
  }

  lemma StrengthWellFormed()
    ensures WellFormed(Strength())
  {
  }

  /** 100 coins, no upgrade yet. */
  function Start(): State {
    State(map["coins" := 100, "strength" := 0], {}, {}, map[])
  }

  lemma StartValid()
    ensures Valid(Strength(), Start())
  {
    var cat := Strength();
    assert CountedIds(cat) == {"coins", "strength"} by {
      forall id | id in cat.items ensures (id in {"coins", "strength"} <==> cat.items[id].Counted()) { }
    }
  }

  /** From level `k` below the top with at least 5 coins, one upgrade buys
      level `k + 1` for 5 coins. */
  lemma ClimbStep(s: State, k: nat)
    requires WellFormed(Strength()) && Valid(Strength(), s)
    requires k < 3 && NextPosition(Strength(), s, "strength") == k
    requires s.balances["coins"] >= 5
    ensures var r := UpgradeVirtualGood(Strength(), s, "strength", Purchased);
            && r.Success?
            && r.value.current == s.current["strength" := Levels()[k]]
            && NextPosition(Strength(), r.value, "strength") == k + 1
            && r.value.balances["coins"] == s.balances["coins"] - 5
  {
    var cat := Strength();
    var u := Levels()[k];
    assert Series(cat, "strength") == Levels();
    assert cat.items[u].purchase == WithVirtualItem(u, "coins", 5);
    assert !Unaffordable(cat, s, cat.items[u].purchase, Purchased);
  }

  /** With 100 coins and no upgrade yet, three upgrades make strength1, then
      strength2, then strength3 current and cost 15 coins; a fourth upgrade
      succeeds without changing anything. */
  lemma StrengthLadderExample()
    ensures WellFormed(Strength()) && Valid(Strength(), Start())
    ensures var s1 := UpgradeVirtualGood(Strength(), Start(), "strength", Purchased);
            && s1.Success? && GoodCurrentUpgrade(Strength(), s1.value, "strength") == Success("strength1")
            && NextPosition(Strength(), s1.value, "strength") == 1
            && var s2 := UpgradeVirtualGood(Strength(), s1.value, "strength", Purchased);
            && s2.Success? && GoodCurrentUpgrade(Strength(), s2.value, "strength") == Success("strength2")
            && NextPosition(Strength(), s2.value, "strength") == 2
            && var s3 := UpgradeVirtualGood(Strength(), s2.value, "strength", Purchased);
            && s3.Success? && GoodCurrentUpgrade(Strength(), s3.value, "strength") == Success("strength3")
            && NextPosition(Strength(), s3.value, "strength") == 3
            && s3.value.balances["coins"] == 85
            && UpgradeVirtualGood(Strength(), s3.value, "strength", Purchased) == s3
  {
    StrengthWellFormed();
    StartValid();
    var cat := Strength();
    assert NextPosition(cat, Start(), "strength") == 0;
    ClimbStep(Start(), 0);
    var s1 := UpgradeVirtualGood(cat, Start(), "strength", Purchased).value;
    ClimbStep(s1, 1);
    var s2 := UpgradeVirtualGood(cat, s1, "strength", Purchased).value;
    ClimbStep(s2, 2);
    var s3 := UpgradeVirtualGood(cat, s2, "strength", Purchased).value;
    assert Series(cat, "strength") == Levels();
  }
}

=== FILE: store_inventory.dfy ===
/**
 The `StoreInventory` facade: the single entry point of the store. Every
 operation resolves its id through the catalog first and fails with
 VirtualItemNotFound when the id is unknown, then checks the item's kind and
 delegates to the balance, purchase, equip or upgrade rules. Each operation is
 a pure transition: it returns the next state or a typed failure, so a failure
 never commits part of its effect.
 */
module StoreInventory {
  import opened Outcomes
  import opened Items
  import opened Inventory
  import opened Purchase
  import opened Equipping
  import opened Upgrades

  /** `buyItemWithItemId`: pays through the item's purchase type and grants one
      unit. A lifetime good the user already owns is not bought again. */
  function BuyItemWithItemId(cat: Catalog, s: State, id: ItemId, market: MarketOutcome): (r: Result<State>)
    requires WellFormed(cat) && Valid(cat, s)
    ensures id !in cat.items ==> r == Failure(VirtualItemNotFound)
    ensures id in cat.items && cat.items[id].Currency? ==> r == Failure(NotPurchasable)
    ensures r.Success? ==> Valid(cat, r.value)
    // a good that can be owned once is bought at most once
    ensures id in cat.items && cat.items[id].OwnedOnce() && !cat.items[id].IsUpgrade() && id in s.owned ==>
              r == Success(s)
    ensures r.Success? && cat.items[id].Counted() ==>
              Balance(cat, r.value, id) == Balance(cat, s, id) + 1
    ensures r.Success? && cat.items[id].OwnedOnce() ==> id in r.value.owned
    // the payment step's InsufficientFunds reaches the caller
    ensures r == Failure(InsufficientFunds) <==>
              && id in cat.items && cat.items[id].Good?
              && !(cat.items[id].OwnedOnce() && !cat.items[id].IsUpgrade() && id in s.owned)
              && cat.items[id].purchase.WithVirtualItem?
              && Balance(cat, s, cat.items[id].purchase.payWith) < cat.items[id].purchase.amount
    // any other good is bought through its purchase type: the payment step
    // decides success, debits the payer and grants the unit
    ensures id in cat.items && cat.items[id].Good?
            && !(cat.items[id].OwnedOnce() && !cat.items[id].IsUpgrade() && id in s.owned) ==>
              r == Buy(cat, s, cat.items[id].purchase, market)
    ensures r.Success? && id in cat.items && cat.items[id].Good?
            && !(cat.items[id].OwnedOnce() && !cat.items[id].IsUpgrade() && id in s.owned)
            && cat.items[id].purchase.WithVirtualItem? ==>
              var price := cat.items[id].purchase;
              Balance(cat, r.value, price.payWith) == Balance(cat, s, price.payWith) - price.amount
  {
    if id !in cat.items then Failure(VirtualItemNotFound)
    else
      match cat.items[id]
      case Currency => Failure(NotPurchasable)
      case Good(kind, pt) =>
        if (kind.Lifetime? || kind.Equippable?) && id in s.owned then Success(s)
        else Buy(cat, s, pt, market)
  }

  /** `getItemBalance`: the count of a currency or single-use good, 1 or 0 for a
      good that can be owned once. */
  function GetItemBalance(cat: Catalog, s: State, id: ItemId): (r: Result<nat>)
    requires WellFormed(cat) && Valid(cat, s)
    ensures r.Failure? <==> id !in cat.items
    ensures r.Failure? ==> r.error == VirtualItemNotFound
    ensures r.Success? && cat.items[id].Counted() ==> r.value == s.balances[id]
    ensures r.Success? && cat.items[id].OwnedOnce() ==> r.value == if id in s.owned then 1 else 0
  {
    if id !in cat.items then Failure(VirtualItemNotFound)
    else Success(Balance(cat, s, id))
  }

  /** `giveAmount:ofItem:`. */
  function GiveAmount(cat: Catalog, s: State, amount: nat, id: ItemId): (r: Result<State>)
    requires WellFormed(cat) && Valid(cat, s)
    ensures r.Failure? <==> id !in cat.items
    ensures r.Failure? ==> r.error == VirtualItemNotFound
    ensures r.Success? ==> Valid(cat, r.value)
    ensures r.Success? && cat.items[id].Counted() ==>
              Balance(cat, r.value, id) == Balance(cat, s, id) + amount
    // a good owned once is owned after any positive gift: its balance is 1
    ensures r.Success? && cat.items[id].OwnedOnce() ==>
              Balance(cat, r.value, id) == if amount == 0 then Balance(cat, s, id) else 1
    ensures r.Success? ==>
              forall x | x in cat.items && x != id :: Balance(cat, r.value, x) == Balance(cat, s, x)
    ensures r.Success? ==> r.value.equipped == s.equipped
    // a given upgrade becomes its good's current upgrade; no other pointer moves
    ensures r.Success? && cat.items[id].IsUpgrade() && amount > 0 ==>
              r.value.current == s.current[cat.items[id].kind.good := id]
    ensures r.Success? && (!cat.items[id].IsUpgrade() || amount == 0) ==> r.value.current == s.current
  {
    if id !in cat.items then Failure(VirtualItemNotFound)
    else Success(Give(cat, s, id, amount))
  }

  /** `takeAmount:ofItem:`: fails with InsufficientFunds, taking nothing, when
      the balance is below `amount`. */
  function TakeAmount(cat: Catalog, s: State, amount: nat, id: ItemId): (r: Result<State>)
    requires WellFormed(cat) && Valid(cat, s)
    ensures id !in cat.items ==> r == Failure(VirtualItemNotFound)
    ensures id in cat.items ==> (r == Failure(InsufficientFunds) <==> Balance(cat, s, id) < amount)
    ensures id in cat.items ==> (r.Success? <==> Balance(cat, s, id) >= amount)
    ensures r.Success? ==> Valid(cat, r.value)
    ensures r.Success? ==> Balance(cat, r.value, id) == Balance(cat, s, id) - amount
    ensures r.Success? ==>
              forall x | x in cat.items && x != id :: Balance(cat, r.value, x) == Balance(cat, s, x)
    // a good taken away is no longer equipped
    ensures r.Success? ==> r.value.equipped == s.equipped - (if amount == 0 then {} else {id})
    // only taking a good's current upgrade moves a pointer, and then it steps back
    ensures r.Success? && (amount == 0 || !IsCurrentUpgrade(cat, s, id)) ==> r.value.current == s.current
    ensures r.Success? && amount > 0 && IsCurrentUpgrade(cat, s, id) ==> r.value.current == StepBack(cat, s, id)
  {
    if id !in cat.items then Failure(VirtualItemNotFound)
    else Take(cat, s, id, amount)
  }

  /** `equipVirtualGoodWithItemId`. */
  function EquipVirtualGood(cat: Catalog, s: State, id: ItemId): (r: Result<State>)
    requires WellFormed(cat) && Valid(cat, s)
    ensures id !in cat.items ==> r == Failure(VirtualItemNotFound)
    ensures id in cat.items && !cat.items[id].IsEquippable() ==> r == Failure(WrongItemType)
    ensures id in cat.items && cat.items[id].IsEquippable() ==>
              (r == Failure(NotEnoughGoods) <==> id !in s.owned)
    ensures r.Success? <==> id in cat.items && cat.items[id].IsEquippable() && id in s.owned
    ensures r.Success? ==> Valid(cat, r.value) && id in r.value.equipped
    ensures r.Success? ==>
              r.value.balances == s.balances && r.value.owned == s.owned && r.value.current == s.current
    // the cascade of each equipping model
    ensures r.Success? && cat.items[id].kind.model == Local ==>
              r.value.equipped == s.equipped + {id}
    ensures r.Success? && cat.items[id].kind.model == Category ==>
              forall x | x != id ::
                x in r.value.equipped <==>
                  x in s.equipped && !InCategory(cat, x, cat.items[id].kind.category)
    ensures r.Success? && cat.items[id].kind.model == Global ==> r.value.equipped == {id}
  {
    if id !in cat.items then Failure(VirtualItemNotFound)
    else if !cat.items[id].IsEquippable() then Failure(WrongItemType)
    else Equip(cat, s, id)
  }

  /** `unEquipVirtualGoodWithItemId`. */
  function UnEquipVirtualGood(cat: Catalog, s: State, id: ItemId): (r: Result<State>)
    requires WellFormed(cat) && Valid(cat, s)
    ensures id !in cat.items ==> r == Failure(VirtualItemNotFound)
    ensures id in cat.items && !cat.items[id].IsEquippable() ==> r == Failure(WrongItemType)
    ensures r.Success? <==> id in cat.items && cat.items[id].IsEquippable()
    ensures r.Success? ==> Valid(cat, r.value) && r.value.equipped == s.equipped - {id}
    ensures r.Success? ==>
              r.value.balances == s.balances && r.value.owned == s.owned && r.value.current == s.current
  {
    if id !in cat.items then Failure(VirtualItemNotFound)
    else if !cat.items[id].IsEquippable() then Failure(WrongItemType)
    else Success(Unequip(cat, s, id))
  }

  /** `isVirtualGoodWithItemIdEquipped`. */
  function IsVirtualGoodEquipped(cat: Catalog, s: State, id: ItemId): (r: Result<bool>)
    requires WellFormed(cat) && Valid(cat, s)
    ensures id !in cat.items ==> r == Failure(VirtualItemNotFound)
    ensures id in cat.items && !cat.items[id].IsEquippable() ==> r == Failure(WrongItemType)
    ensures r.Success? <==> id in cat.items && cat.items[id].IsEquippable()
    ensures r.Success? ==> (r.value <==> id in s.equipped)
    // an equipped good is always owned
    ensures r == Success(true) ==> id in s.owned
  {
    if id !in cat.items then Failure(VirtualItemNotFound)
    else if !cat.items[id].IsEquippable() then Failure(WrongItemType)
    else Success(id in s.equipped)
  }

  /** `goodUpgradeLevel`: the 1-based position of the current upgrade in the
      good's series, 0 when there is none. */
  method GoodUpgradeLevel(cat: Catalog, s: State, g: ItemId) returns (r: Result<nat>)
    requires WellFormed(cat) && Valid(cat, s)
    ensures g !in cat.items ==> r == Failure(VirtualItemNotFound)
    ensures g in cat.items && cat.items[g].Currency? ==> r == Failure(WrongItemType)
    ensures r.Success? <==> g in cat.items && cat.items[g].Good?
    ensures r.Success? ==> (r.value == 0 <==> g !in s.current)
    ensures r.Success? && r.value > 0 ==>
              r.value <= |Series(cat, g)| && Series(cat, g)[r.value - 1] == s.current[g]
  {
    if g !in cat.items {
      return Failure(VirtualItemNotFound);
    }
    if cat.items[g].Currency? {
      return Failure(WrongItemType);
    }
    var level := UpgradeLevel(cat, s, g);
    return Success(level);
  }

  /** `goodCurrentUpgrade`: the current upgrade's id, or "" when there is none. */
  function GoodCurrentUpgrade(cat: Catalog, s: State, g: ItemId): (r: Result<string>)
    requires WellFormed(cat) && Valid(cat, s)
    ensures g !in cat.items ==> r == Failure(VirtualItemNotFound)
    ensures g in cat.items && cat.items[g].Currency? ==> r == Failure(WrongItemType)
    ensures r.Success? <==> g in cat.items && cat.items[g].Good?
    ensures r.Success? ==> (r.value == "" <==> g !in s.current)
    ensures r.Success? && r.value != "" ==> r.value == s.current[g] && r.value in Series(cat, g)
  {
    if g !in cat.items then Failure(VirtualItemNotFound)
    else if cat.items[g].Currency? then Failure(WrongItemType)
    else Success(CurrentUpgradeId(cat, s, g))
  }

  /** `upgradeVirtualGood`. */
  function UpgradeVirtualGood(cat: Catalog, s: State, g: ItemId, market: MarketOutcome): (r: Result<State>)
    requires WellFormed(cat) && Valid(cat, s)
    ensures g !in cat.items ==> r == Failure(VirtualItemNotFound)
    ensures g in cat.items && cat.items[g].Currency? ==> r == Failure(WrongItemType)
    ensures r.Success? ==> Valid(cat, r.value)
    // no current upgrade: the first upgrade of the series is bought and made current
    ensures r.Success? && g !in s.current && |Series(cat, g)| > 0 ==>
              r.value.current == s.current[g := Series(cat, g)[0]]
    // a current upgrade with a successor: the successor is bought and made current
    ensures r.Success? && g in s.current && NextPosition(cat, s, g) < |Series(cat, g)| ==>
              r.value.current == s.current[g := Series(cat, g)[NextPosition(cat, s, g)]]
              && Series(cat, g)[NextPosition(cat, s, g) - 1] == s.current[g]
    // the last upgrade is current, or the good has no series: nothing happens
    ensures g in cat.items && cat.items[g].Good? && NextPosition(cat, s, g) == |Series(cat, g)| ==>
              r == Success(s)
    ensures (g in cat.items && cat.items[g].Good? && g in s.current &&
             s.current[g] == Series(cat, g)[|Series(cat, g)| - 1]) ==> r == Success(s)
    // each step is a purchase: it fails exactly when that purchase cannot go through
    ensures g in cat.items && cat.items[g].Good? ==>
              (r.Failure? <==>
                 && NextPosition(cat, s, g) < |Series(cat, g)|
                 && Series(cat, g)[NextPosition(cat, s, g)] in cat.items
                 && cat.items[Series(cat, g)[NextPosition(cat, s, g)]].Good?
                 && Unaffordable(cat, s, cat.items[Series(cat, g)[NextPosition(cat, s, g)]].purchase, market))
    // a step that buys is paid for, and the bought upgrade is owned
    ensures r.Success? && NextPosition(cat, s, g) < |Series(cat, g)| ==>
              var bought := Series(cat, g)[NextPosition(cat, s, g)];
              && bought in r.value.owned
              && (cat.items[bought].purchase.WithVirtualItem? ==>
                    var price := cat.items[bought].purchase;
                    Balance(cat, r.value, price.payWith) == Balance(cat, s, price.payWith) - price.amount)
    // nothing but the bought upgrade and its payer changes balance, and no equip flag moves
    ensures r.Success? && NextPosition(cat, s, g) < |Series(cat, g)| ==>
              var bought := Series(cat, g)[NextPosition(cat, s, g)];
              var price := cat.items[bought].purchase;
              forall x | x in cat.items && x != bought && (price.WithVirtualItem? ==> x != price.payWith) ::
                Balance(cat, r.value, x) == Balance(cat, s, x)
    ensures r.Success? ==> r.value.equipped == s.equipped
  {
    if g !in cat.items then Failure(VirtualItemNotFound)
    else if cat.items[g].Currency? then Failure(WrongItemType)
    else Advance(cat, s, g, market)
  }

  /** `forceUpgrade`: the free upgrade; the item must be an upgrade. */
  function ForceUpgrade(cat: Catalog, s: State, u: ItemId): (r: Result<State>)
    requires WellFormed(cat) && Valid(cat, s)
    ensures u !in cat.items ==> r == Failure(VirtualItemNotFound)
    ensures u in cat.items && !cat.items[u].IsUpgrade() ==> r == Failure(WrongItemType)
    ensures r.Success? <==> u in cat.items && cat.items[u].IsUpgrade()
    ensures r.Success? ==> Valid(cat, r.value)
    ensures r.Success? ==> r.value.current == s.current[cat.items[u].kind.good := u]
    // nothing is paid
    ensures r.Success? ==> forall x | x in cat.items :: Balance(cat, r.value, x) >= Balance(cat, s, x)
    ensures r.Success? ==> forall x | x in cat.items && x != u :: Balance(cat, r.value, x) == Balance(cat, s, x)
    ensures r.Success? ==> r.value.equipped == s.equipped
  {
    if u !in cat.items then Failure(VirtualItemNotFound)
    else if !cat.items[u].IsUpgrade() then Failure(WrongItemType)
    else Success(Force(cat, s, u))
  }

  /** `removeUpgrades`. */
  function RemoveUpgrades(cat: Catalog, s: State, g: ItemId): (r: Result<State>)
    requires WellFormed(cat) && Valid(cat, s)
    ensures g !in cat.items ==> r == Failure(VirtualItemNotFound)
    ensures g in cat.items && cat.items[g].Currency? ==> r == Failure(WrongItemType)
    ensures r.Success? <==> g in cat.items && cat.items[g].Good?
    ensures r.Success? ==> Valid(cat, r.value) && g !in r.value.current
    // every other good keeps its current upgrade
    ensures r.Success? ==> forall h | h != g :: (h in r.value.current <==> h in s.current)
    ensures r.Success? ==> forall h | h in r.value.current :: r.value.current[h] == s.current[h]
    ensures r.Success? ==>
              r.value.owned == s.owned && r.value.balances == s.balances && r.value.equipped == s.equipped
  {
    if g !in cat.items then Failure(VirtualItemNotFound)
    else if cat.items[g].Currency? then Failure(WrongItemType)
    else Success(RemoveAll(cat, s, g))
  }

  /** `nonConsumableItemExists`: whether the user owns the good. */
  function NonConsumableItemExists(cat: Catalog, s: State, id: ItemId): (r: Result<bool>)
    requires WellFormed(cat) && Valid(cat, s)
    ensures id !in cat.items ==> r == Failure(VirtualItemNotFound)
    ensures id in cat.items && !cat.items[id].OwnedOnce() ==> r == Failure(WrongItemType)
    ensures r.Success? <==> id in cat.items && cat.items[id].OwnedOnce()
    ensures r.Success? ==> (r.value <==> Balance(cat, s, id) == 1)
  {
    if id !in cat.items then Failure(VirtualItemNotFound)
    else if !cat.items[id].OwnedOnce() then Failure(WrongItemType)
    else Success(id in s.owned)
  }

  /** `addNonConsumableItem`: sets the owned flag, bypassing any purchase. */
  function AddNonConsumableItem(cat: Catalog, s: State, id: ItemId): (r: Result<State>)
    requires WellFormed(cat) && Valid(cat, s)
    ensures id !in cat.items ==> r == Failure(VirtualItemNotFound)
    ensures id in cat.items && !cat.items[id].OwnedOnce() ==> r == Failure(WrongItemType)
    ensures r.Success? <==> id in cat.items && cat.items[id].OwnedOnce()
    ensures r.Success? ==> Valid(cat, r.value) && r.value.owned == s.owned + {id}
    ensures r.Success? ==>
              r.value.balances == s.balances && r.value.equipped == s.equipped && r.value.current == s.current
  {
    if id !in cat.items then Failure(VirtualItemNotFound)
    else if !cat.items[id].OwnedOnce() then Failure(WrongItemType)
    else Success(s.(owned := s.owned + {id}))
  }

  /** `removeNonConsumableItem`: clears the owned flag; a good no longer owned
      cannot stay equipped. */
  function RemoveNonConsumableItem(cat: Catalog, s: State, id: ItemId): (r: Result<State>)
    requires WellFormed(cat) && Valid(cat, s)
    ensures id !in cat.items ==> r == Failure(VirtualItemNotFound)
    ensures id in cat.items && !cat.items[id].OwnedOnce() ==> r == Failure(WrongItemType)
    ensures r.Success? <==> id in cat.items && cat.items[id].OwnedOnce()
    ensures r.Success? ==> Valid(cat, r.value) && r.value.owned == s.owned - {id}
    ensures r.Success? ==>
              r.value.balances == s.balances && r.value.equipped == s.equipped - {id}
              && r.value.current == s.current
  {
    if id !in cat.items then Failure(VirtualItemNotFound)
    else if !cat.items[id].OwnedOnce() then Failure(WrongItemType)
    else Success(s.(owned := s.owned - {id}, equipped := s.equipped - {id}))
  }
}

=== FILE: upgrades.dfy ===
/**
 The upgrade ladder of a virtual good. Each upgradeable good has an ordered
 series of `UpgradeVG`s and at most one current upgrade. Upgrading buys the
 next upgrade of the series (the first one when there is none yet) and makes
 it current; once the last one is current, upgrading does nothing. A forced
 upgrade is given for free; removing upgrades clears the pointer.
 */
module Upgrades {
  import opened Outcomes
  import opened Items
  import opened Inventory
  import opened Purchase

  /** The 0-based position in `g`'s series of the upgrade the next upgrade step
      buys: 0 with no current upgrade, one past the current one otherwise. */
  function NextPosition(cat: Catalog, s: State, g: ItemId): (p: nat)
    requires WellFormed(cat) && Valid(cat, s)
    ensures p <= |Series(cat, g)|
    ensures p == 0 <==> g !in s.current
    ensures p > 0 ==> Series(cat, g)[p - 1] == s.current[g]
  {
    if g !in s.current then 0
    else
      UpgradeInSeries(cat, s.current[g]);
      cat.items[s.current[g]].kind.level + 1
  }

  /** `goodUpgradeLevel`: walks the series from its first upgrade until it meets
      the current one and reports the 1-based position reached, or 0 when the
      good has no current upgrade. */
  method UpgradeLevel(cat: Catalog, s: State, g: ItemId) returns (level: nat)
    requires WellFormed(cat) && Valid(cat, s)
    ensures level == 0 <==> g !in s.current
    ensures level > 0 ==> level <= |Series(cat, g)| && Series(cat, g)[level - 1] == s.current[g]
    ensures g in s.current ==> level == cat.items[s.current[g]].kind.level + 1
  {
    if g !in s.current {
      return 0;
    }
    var chain := Series(cat, g);
    var u := s.current[g];
    ghost var target := cat.items[u].kind.level;
    UpgradeInSeries(cat, u);
    var i := 0;
    while chain[i] != u
      invariant i <= target < |chain|
      invariant chain[target] == u
      decreases target - i
    {
      i := i + 1;
    }
    assert cat.items[chain[i]].kind.level == i;
    level := i + 1;
  }

  /** `goodCurrentUpgrade`: the current upgrade's id, or the empty string (never
      an id of the catalog) when there is none. */
  function CurrentUpgradeId(cat: Catalog, s: State, g: ItemId): (id: string)
    requires WellFormed(cat) && Valid(cat, s)
    ensures id == "" <==> g !in s.current
    ensures id != "" ==> id == s.current[g]
    ensures id != "" ==> id in Series(cat, g) && cat.items[id].IsUpgrade() && cat.items[id].kind.good == g
  {
    if g in s.current then
      UpgradeInSeries(cat, s.current[g]);
      s.current[g]
    else ""
  }

  /** `upgradeVirtualGood`: buys the upgrade at the next position of the series
      and makes it current; when the last upgrade is already current (or the
      good has no series) it succeeds without changing anything. A failed
      purchase changes nothing. */
  function Advance(cat: Catalog, s: State, g: ItemId, market: MarketOutcome): (r: Result<State>)
    requires WellFormed(cat) && Valid(cat, s)
    ensures NextPosition(cat, s, g) == |Series(cat, g)| ==> r == Success(s)
    // the step fails exactly when the next upgrade's purchase cannot go through
    ensures r.Failure? <==>
              && NextPosition(cat, s, g) < |Series(cat, g)|
              && Series(cat, g)[NextPosition(cat, s, g)] in cat.items
              && cat.items[Series(cat, g)[NextPosition(cat, s, g)]].Good?
              && Unaffordable(cat, s, cat.items[Series(cat, g)[NextPosition(cat, s, g)]].purchase, market)
    ensures r.Success? ==> Valid(cat, r.value)
    ensures r.Success? && NextPosition(cat, s, g) < |Series(cat, g)| ==>
              var bought := Series(cat, g)[NextPosition(cat, s, g)];
              && r.value.current == s.current[g := bought]
              && NextPosition(cat, r.value, g) == NextPosition(cat, s, g) + 1
              && bought in r.value.owned
              && (cat.items[bought].purchase.WithVirtualItem? ==>
                    var price := cat.items[bought].purchase;
                    Balance(cat, r.value, price.payWith) == Balance(cat, s, price.payWith) - price.amount)
    // nothing but the bought upgrade and its payer changes balance
    ensures r.Success? && NextPosition(cat, s, g) < |Series(cat, g)| ==>
              var bought := Series(cat, g)[NextPosition(cat, s, g)];
              var price := cat.items[bought].purchase;
              forall x | x in cat.items && x != bought && (price.WithVirtualItem? ==> x != price.payWith) ::
                Balance(cat, r.value, x) == Balance(cat, s, x)
    ensures r.Success? ==> r.value.equipped == s.equipped
  {
    var chain := Series(cat, g);
    var next := NextPosition(cat, s, g);
    if next == |chain| then
      Success(s)
    else
      var u := chain[next];
      UpgradeInSeries(cat, u);
      Buy(cat, s, cat.items[u].purchase, market)
  }

  /** `forceUpgrade`: gives the upgrade `u` for free, making it the current
      upgrade of its good. No balance is debited; only `u` itself gains. */
  function Force(cat: Catalog, s: State, u: ItemId): (r: State)
    requires WellFormed(cat) && Valid(cat, s)
    requires u in cat.items && cat.items[u].IsUpgrade()
    ensures Valid(cat, r)
    ensures r.current == s.current[cat.items[u].kind.good := u]
    ensures u in r.owned
    ensures forall x | x in cat.items :: Balance(cat, r, x) >= Balance(cat, s, x)
    ensures forall x | x in cat.items && x != u :: Balance(cat, r, x) == Balance(cat, s, x)
    ensures r.equipped == s.equipped
  {
    Give(cat, s, u, 1)
  }

  /** `removeUpgrades`: the good has no current upgrade afterwards; upgrades
      already bought stay owned and every other good keeps its pointer. */
  function RemoveAll(cat: Catalog, s: State, g: ItemId): (r: State)
    requires WellFormed(cat) && Valid(cat, s)
    ensures Valid(cat, r)
    ensures g !in r.current
    ensures forall h | h != g :: (h in r.current <==> h in s.current)
    ensures forall h | h in r.current :: r.current[h] == s.current[h]
    ensures r.balances == s.balances && r.owned == s.owned && r.equipped == s.equipped
  {
    s.(current := s.current - {g})
  }

  /** Every upgrade of `g`'s series is sold through the market. */
  ghost predicate SoldOnMarket(cat: Catalog, g: ItemId) {
    forall i | 0 <= i < |Series(cat, g)| ::
      Series(cat, g)[i] in cat.items && cat.items[Series(cat, g)[i]].Good?
      && cat.items[Series(cat, g)[i]].purchase.WithMarket?
  }

  function Min(a: nat, b: nat): nat {
    if a <= b then a else b
  }

  /** On a series sold through the market, one upgrade step with the purchase
      going through moves the next position one place up, never past the end. */
  lemma MarketStep(cat: Catalog, s: State, g: ItemId)
    requires WellFormed(cat) && Valid(cat, s)
    ensures SoldOnMarket(cat, g) ==>
              && Advance(cat, s, g, Purchased).Success?
              && NextPosition(cat, Advance(cat, s, g, Purchased).value, g)
                 == Min(NextPosition(cat, s, g) + 1, |Series(cat, g)|)
  {
    var p := NextPosition(cat, s, g);
    if SoldOnMarket(cat, g) && p < |Series(cat, g)| {
      assert cat.items[Series(cat, g)[p]].purchase.WithMarket?;
    }
  }

  /** `upgradeVirtualGood` called `k` times in a row, stopping at the first
      failure. On a series sold through the market with every purchase going
      through, the `k` steps all succeed and move the next position `k` places
      up the series, never past its end. */
  function UpgradeRepeatedly(cat: Catalog, s: State, g: ItemId, k: nat, market: MarketOutcome): (r: Result<State>)
    requires WellFormed(cat) && Valid(cat, s)
    ensures r.Success? ==> Valid(cat, r.value)
    ensures SoldOnMarket(cat, g) && market == Purchased ==>
              && r.Success?
              && NextPosition(cat, r.value, g) == Min(NextPosition(cat, s, g) + k, |Series(cat, g)|)
    decreases k
  {
    if k == 0 then Success(s)
    else
      match Advance(cat, s, g, market)
      case Failure(e) => Failure(e)
      case Success(t) =>
        MarketStep(cat, s, g);
        UpgradeRepeatedly(cat, t, g, k - 1, market)
  }

  /** On a series sold through the market, once `k` steps reach the end of
      the series, a further step changes nothing. */
  lemma {:induction false} LadderSettles(cat: Catalog, s: State, g: ItemId, k: nat)
    requires WellFormed(cat) && Valid(cat, s) && SoldOnMarket(cat, g)
    requires NextPosition(cat, s, g) + k >= |Series(cat, g)|
    ensures UpgradeRepeatedly(cat, s, g, k + 1, Purchased) == UpgradeRepeatedly(cat, s, g, k, Purchased)
    decreases k
  {
    MarketStep(cat, s, g);
    if k > 0 {
      LadderSettles(cat, Advance(cat, s, g, Purchased).value, g, k - 1);
    }
  }

  /** Starting with no upgrade, `N + 1` upgrade steps on a series of `N`
      upgrades end with the last upgrade current, and the last step is a no-op. */
  lemma LadderEndsAtLast(cat: Catalog, s: State, g: ItemId)
    requires WellFormed(cat) && Valid(cat, s) && SoldOnMarket(cat, g)
    requires g !in s.current && |Series(cat, g)| > 0
    ensures var n := |Series(cat, g)|;
            && UpgradeRepeatedly(cat, s, g, n + 1, Purchased).Success?
            && g in UpgradeRepeatedly(cat, s, g, n + 1, Purchased).value.current
            && UpgradeRepeatedly(cat, s, g, n + 1, Purchased).value.current[g] == Series(cat, g)[n - 1]
            && UpgradeRepeatedly(cat, s, g, n + 1, Purchased) == UpgradeRepeatedly(cat, s, g, n, Purchased)
  {
    var n := |Series(cat, g)|;
    LadderSettles(cat, s, g, n);
    var r := UpgradeRepeatedly(cat, s, g, n, Purchased);
    assert NextPosition(cat, r.value, g) == n;
  }
}
